=== FILE: README.md ===
# Reward evaluation of a motion-imitating robot, in Dafny

This project models the reward-evaluation engine of a reinforcement-learning
trainer. In that trainer, a physically simulated robot imitates a reference
motion clip. For every frame of the clip the engine:

- scores how closely the robot's effectors (hands, feet, …) meet the frame's
  location and rotation targets (`calc_effector_reward`);
- penalises frame-to-frame change of the motion's joint targets (`calc_stabilization_reward`);
- combines the two into a weighted sum (`calc_reward`).

`evaluate` then steps through the motion's frames up to `loop` times its
length. It sums the per-frame rewards and divides the sum by the expected
number of frames.

All numbers are Dafny `real`s. A reward is a Python float, so it can also be
`-inf` (when `exp` overflows) or NaN. It is modelled as
`ExtReals.ExtReal = Fin(v) | NegInf | PosInf | NaN`, with IEEE rules for the
non-finite cases. The ZeroDivisionErrors that the source can raise become
`Failure` results.

Some functions are called by the source but their code is not part of this
model. Each one is a function-valued field of a record:

- `math.exp`, whether `exp` overflows, `np.linalg.norm` and
  `quaternion.rotation_intrinsic_distance` are fields of `Geometry.MathLib`.
  `Geometry.Valid` lists the only facts assumed about them:
  - `exp(0) = 1`, and `exp(x) > 1` for `x > 0` (true of real `exp`; a float `exp` rounds `exp(1e-17)` to `1.0`);
  - overflow happens only for positive arguments;
  - norms and rotation distances are `>= 0`;
  - the norm of the zero vector is 0, and the rotation distance of equal quaternions is 0.
- `select_location` and `select_rotation` are the fields of `Geometry.Selector`.
- The robot's link poses after each simulation step are inputs: the `robot`
  field of each `Episode.Step`.
- The result of `try_get_pre_positions` is the `initialPre` argument.

Modules:

- `Wrappers`: `Option` and `Result`.
- `ExtReals`: float values and the float `+`, `*` and `/` that the rewards use.
- `Geometry`: vectors, quaternions in both component orders, poses, the
  abstract library and `Square`.
- `Evaluation`: the three reward functions.
- `Episode`: `evaluate`, written as a recursive fold over the frames. It comes
  with an index-based reference definition and lemmas connecting the two.

Effector weights are meant to be positive, but the code never checks this.
So the lemmas take the sign hypotheses they need.

A zero weight is meant to remove its term. But `e * we` gives NaN when `e` is
`-inf`, and so does `s * ws` when `s` is `-inf` (see "Findings"). The
weighted sum is therefore a parameter `how: Evaluation.Summation`:

- `AsWritten` is line 52 as the source writes it (`Evaluation.CombineAsWritten`).
- `Corrected` lets a zero weight drop its term (`Evaluation.Combine`).

`CalcReward`, `Run`, `Evaluate` and every lemma about them take `how`, except
`Episode.DefaultScoreNonPositive`, which is about the source's sum only. Each
other lemma states what holds of both sums, and says where the source's sum
differs.

The stabilization term compares each frame's joint targets (`frame.positions`)
with the previous frame's. It never reads the robot. So the robot affects a
frame's reward only through the tracking term
(`Evaluation.RobotOnlyThroughTracking`).

## Model

| member | source | states |
|---|---|---|
| `Geometry.Sub` | trainer/evaluation.py:20 | `pose.vector - target` is zero exactly when the two vectors are equal, and adding `target` back gives `pose.vector` |
| `Geometry.ToWxyz` | trainer/evaluation.py:25-26 | reordering a link-state quaternion `(x, y, z, w)` into library order `(w, x, y, z)` is a permutation that keeps every component; `ToXyzw` undoes it |
| `Geometry.SquareFacts` | trainer/evaluation.py:20 | the `** 2` applied to a distance is non-negative, and zero exactly when the distance is zero |
| `ExtReals.Add` | trainer/evaluation.py:68 | float `+`: NaN exactly when an operand is NaN or the operands are opposite infinities; finite exactly when both operands are finite; `0 + b == b` |
| `ExtReals.Scale` | trainer/evaluation.py:52 | float `*` by a finite weight: NaN exactly when the value is NaN, or is infinite and the weight is zero; finite exactly when the value is |
| `ExtReals.DivBy` | trainer/evaluation.py:71 | float `/` by a non-zero count: the quotient times the divisor gives back a finite dividend; a positive divisor leaves `-inf`, `+inf` and NaN unchanged |
| `Evaluation.CountIsTargetsPresent` | trainer/evaluation.py:12-28 | `c` is the number of effectors with a location target plus the number with a rotation target, so an effector with both counts twice |
| `Evaluation.NoCountIffNoTargets` | trainer/evaluation.py:12-28 | `c == 0` exactly when no effector carries any target |
| `Evaluation.ContributionNonNegative` | trainer/evaluation.py:18-28 | with non-negative `wl`, `wr` and effector weights, each effector adds a non-negative amount to `diff` |
| `Evaluation.ContributionZeroIffTracked` | trainer/evaluation.py:18-28 | with positive weights, an effector adds zero to `diff` exactly when all its location and rotation distances are zero |
| `Evaluation.DiffNonNegative` | trainer/evaluation.py:11-28 | with non-negative weights, the accumulated `diff` is non-negative |
| `Evaluation.TrackedContributionZero` | trainer/evaluation.py:18-28 | whatever the weights, an effector that meets every target it carries exactly adds 0 to `diff` |
| `Evaluation.TrackedDiffZero` | trainer/evaluation.py:11-28 | whatever the weights, `diff` is 0 when every effector meets every target it carries exactly |
| `Evaluation.DiffZeroIffTracked` | trainer/evaluation.py:11-28 | with positive weights, `diff` is zero exactly when every effector meets every target it carries |
| `Evaluation.Reshape` | trainer/evaluation.py:30-33 | `1 - exp(x)` is `-inf` exactly when `exp` overflows and finite otherwise; for `x >= 0` it is at most 0, and it is exactly 0 iff `x == 0` |
| `Evaluation.EffectorReward` | trainer/evaluation.py:10-33 | the tracking reward fails (the source divides by `c == 0`) exactly when no effector carries a target; otherwise it is finite or `-inf`, never NaN or `+inf` |
| `Evaluation.EffectorRewardNonPositive` | trainer/evaluation.py:29-33 | with non-negative `ke`, `wl`, `wr` and effector weights, the tracking reward is at most 0 or `-inf` |
| `Evaluation.EffectorRewardZeroIffTracked` | trainer/evaluation.py:18-33 | with positive weights, the tracking reward is exactly 0 iff some effector carries a target and every target is met exactly |
| `Evaluation.TrackedRewardZero` | trainer/evaluation.py:10-33 | whatever `ke`, `wl`, `wr` and the effector weights, the tracking reward is exactly 0 when some effector carries a target and every target is met exactly |
| `Evaluation.ChangeSumNonNegative` | trainer/evaluation.py:39 | `change_sum` is non-negative |
| `Evaluation.ChangeSumZeroIffStill` | trainer/evaluation.py:39 | `change_sum` is zero exactly when the current positions equal the previous ones |
| `Evaluation.StabilizationReward` | trainer/evaluation.py:35-44 | no previous positions gives 0; identical non-empty positions give 0; it fails exactly when the previous positions cover other joints or there are no joints (division by `len(positions) == 0`); with `ks >= 0` it is at most 0 or `-inf` |
| `Evaluation.StabilizationZeroIffStill` | trainer/evaluation.py:39-42 | with `ks > 0` and previous positions for the same non-empty joint set, the stabilization reward is 0 exactly when no joint moved |
| `Evaluation.ZeroTrackingWeightAsWritten` | trainer/evaluation.py:52 | in the sum as written with a finite stabilization reward `s`, `we = 0` reduces the result to `ws * s` exactly when the tracking reward is finite; a `-inf` tracking reward makes it NaN |
| `Evaluation.Weighted` | trainer/evaluation.py:52 | corrected sum (see Findings): a zero weight yields exactly 0, whatever the reward; a finite reward is multiplied by the weight |
| `Evaluation.Combine` | trainer/evaluation.py:52 | corrected sum (see Findings): `we = 0` leaves only the stabilization term and `ws = 0` only the tracking term; on finite rewards the result is `we*e + ws*s` |
| `Evaluation.CombineAgreesAsWritten` | trainer/evaluation.py:52 | the corrected sum equals the source's whenever no non-finite reward meets a zero weight, in particular whenever both weights are non-zero |
| `Evaluation.ZeroStabilizationWeightAsWritten` | trainer/evaluation.py:52 | in the sum as written with a finite tracking reward `e`, `ws = 0` reduces the result to `we * e` exactly when the stabilization reward is finite; a `-inf` stabilization reward makes it NaN |
| `Evaluation.CalcReward` | trainer/evaluation.py:47-52 | the reward succeeds exactly when both the tracking and the stabilization rewards succeed |
| `Evaluation.CalcRewardNonPositive` | trainer/evaluation.py:47-52 | with all six weights and the effector weights non-negative, each frame's reward is at most 0 or `-inf`; the source's sum may instead be NaN, and then `we` or `ws` is 0 |
| `Evaluation.CalcRewardNaNIff` | trainer/evaluation.py:47-52 | with non-negative weights, the source's reward is NaN exactly when `we = 0` meets a `-inf` tracking reward or `ws = 0` meets a `-inf` stabilization reward; the corrected reward is never NaN |
| `Evaluation.ZeroTrackingWeightIgnoresTracking` | trainer/evaluation.py:50-52 | with `we = 0`, two robots in any poses get the same corrected reward; the source's reward is the same too, unless a robot's tracking reward is `-inf` |
| `Evaluation.ZeroStabilizationWeightIgnoresHistory` | trainer/evaluation.py:51-52 | with `ws = 0`, previous positions for the same non-empty joint set give the same corrected reward as no previous positions; so does the source's reward, unless the stabilization reward is `-inf` |
| `Evaluation.RobotOnlyThroughTracking` | trainer/evaluation.py:50-51 | two robots with the same tracking reward get the same reward: the stabilization term never reads the robot |
| `Evaluation.DefaultWeights` | trainer/evaluation.py:47 | the defaults are `we=1, ws=0.1, ke=1, ks=1, wl=1, wr=0.005`: all non-negative, with tracking weighted above stabilization; since neither `we` nor `ws` is 0, the source's sum under them keeps its sign without NaN |
| `Episode.Ceil` | trainer/evaluation.py:71 | `math.ceil(x)` is the least integer `n` with `x <= n` |
| `Episode.Normalise` | trainer/evaluation.py:71 | the score exists exactly when `dt != 0` and `ceil(length / dt * loop) != 0`; the score times that ceiling gives back the reward sum |
| `Episode.Finish` | trainer/evaluation.py:60-72 | a failure raised inside the loop propagates unchanged; a score is produced only when the loop finished and the divisor is non-zero |
| `Episode.Evaluate` | trainer/evaluation.py:55-72 | a score, under either sum, is produced only for a non-zero timestep and a non-zero expected frame count |
| `Episode.ScoredCount` | trainer/evaluation.py:60-62 | the scored frames are those before the first with `t > length * loop`: every scored frame has `t <= length * loop` (so a frame at exactly the limit is scored), and the next frame, if any, lies past the limit |
| `Episode.SumFailurePersists` | trainer/evaluation.py:60-69 | once a frame's reward fails, the whole episode fails with that frame's error |
| `Episode.RunFrom` | trainer/evaluation.py:60-69 | the loop resumed at frame `j` with the reference state ends in the reference final state |
| `Episode.RunMatchesReference` | trainer/evaluation.py:56-69 | the loop scores the frames in order, each against the previous frame's positions (or the initial ones for the first frame); it ends with their reward sum and with `pre_positions` equal to the last scored frame's positions |
| `Episode.EvaluateMatchesReference` | trainer/evaluation.py:55-72 | the score is the reference sum over the scored frames divided by `ceil(length / dt * loop)`, not by the number of frames scored; a failing frame fails the episode |
| `Episode.RunStopsAtFirstLateFrame` | trainer/evaluation.py:60-62 | the loop's outcome depends only on the frames before the first one past the limit |
| `Episode.EvaluateStopsAtFirstLateFrame` | trainer/evaluation.py:60-62 | the score equals the score of the prefix cut at the first frame past `length * loop` |
| `Episode.RunNonPositive` | trainer/evaluation.py:56-69 | with non-negative weights, the running reward sum stays at most 0 or `-inf`; with the source's sum it may instead be NaN, and only when `we` or `ws` is 0 |
| `Episode.EvaluateNonPositive` | trainer/evaluation.py:55-72 | with non-negative weights, a positive timestep, a non-negative length and `loop >= 0`, the score is at most 0 or `-inf`; with the source's sum it may instead be NaN, and only when `we` or `ws` is 0 |
| `Episode.DefaultScoreNonPositive` | trainer/evaluation.py:47-72 | with the default weights, `loop = 2`, non-negative effector weights, a positive timestep and a non-negative length, the source's score is at most 0 or `-inf`, never NaN |
| `Episode.PerfectFrameRewardZero` | trainer/evaluation.py:68 | whatever the six weights and the effector weights, a frame has reward 0 under either sum when at least one of its effectors carries a target, the robot meets every target exactly, and there are no previous positions or they equal the frame's non-empty joint targets |
| `Episode.PerfectEpisodeScoresZero` | trainer/evaluation.py:55-72 | whatever the weights, when every scored frame has at least one effector carrying a target, the robot meets every such target exactly, and each scored frame's joint targets are non-empty and equal the previous positions (unless there are none), the score is exactly 0 under either sum, and `evaluate` can fail only for a zero timestep or a zero expected frame count |

## Left out

- Floating point: values are exact reals. Rounding, `-0.0` and overflow other than `exp`'s are not modelled. `-inf`, `+inf` and NaN appear only where the reward code can produce them. Because `exp(x) > 1` for `x > 0` holds of real `exp` only (`math.exp(1e-17) == 1.0`), the "reward 0 implies tracked" half of EffectorRewardZeroIffTracked and the "reward 0 implies still" half of StabilizationZeroIffStill hold of real arithmetic, not of floats: a tiny non-zero error can round to a reward of exactly 0. The converse halves do not rely on that fact.
- `math.exp`, `np.linalg.norm` and `quaternion.rotation_intrinsic_distance` are library internals. They are abstract, and only the facts in `Geometry.Valid` are assumed. Overflow is an abstract predicate, not the threshold `log(DBL_MAX)`.
- `select_location`, `select_rotation`, `dictzip`, `try_get_pre_positions` and `apply_joints`: trainer/utils.py and trainer/simulation.py are not part of this model. The two selectors are abstract functions with no assumed properties. So "a `WORLD` target is returned unchanged" is not modelled.
- A rotation distance of 0 between `q` and `-q` (double cover) is not assumed. No property proved here needs it.
- `scene.step()`, `apply_joints` and `robot.link_state`: the physics side effects are not modelled. The robot state after each step is an input, and a lookup of an unknown link is not modelled. An exception raised by `try_get_pre_positions`, `motion.frames`, `apply_joints` or `scene.step()` (lines 58, 60, 64 and 66 of trainer/evaluation.py), which `evaluate` passes on unchanged, is not modelled either: every step is assumed to succeed, so `Episode.EpisodeError` has no case for such external failures and `Episode.Evaluate` describes only runs in which these calls return normally.
- `motion.frames(scene.dt)`: the frame generator is an input sequence of `(t, frame, robot)` steps.
- Joint position dictionaries: these are dense sequences indexed by a fixed joint registry. So `dictzip` pairs entries with equal index. Previous positions of another length fail with `JointSetMismatch`. The source's behaviour for mismatched key sets depends on `dictzip`, which is not part of this model.
- `if effector.location:` / `if effector.rotation:`: Python truthiness of the target objects is modelled as `Option` presence.
- `loop` is an integer, as its default `2` is; a fractional `loop` is not modelled.
- Python evaluates `motion.frames(scene.dt)` before the division at line 71. A zero `dt` is reported only at the division, as `ZeroTimestep`.
- ZeroTrackingWeightIgnoresTracking: for the source's sum, it claims equal rewards only when neither robot's tracking reward is `-inf`. With a `-inf` one the source gives NaN, and NaN for one robot against `ws * s` for another are not equal (`Evaluation.ZeroTrackingWeightAsWritten`).
- ZeroStabilizationWeightIgnoresHistory: for the source's sum, it claims independence from the history only when the stabilization reward is not `-inf`. With a `-inf` one the source gives NaN against `we * e` without history (`Evaluation.ZeroStabilizationWeightAsWritten`).
- `motion.effector_weight(name)` and `motion.effector_type(name)` are total functions of the effector name. A name missing from the motion's tables, which may raise in the source, is not modelled.
- Loop invariance of the score for perfectly periodic motions is not modelled. It depends on the physics and on float tolerance.
- train.py (argument parsing, TensorBoard, gym wrappers, PPO training, checkpoints, notifications) is not part of this model.

## Findings

| source | as written | input that shows it | evidently intended | confidence | as-written member | corrected member |
|---|---|---|---|---|---|---|
| trainer/evaluation.py:52 | `e * we + s * ws` multiplies the tracking reward by `we` even when `we` is 0 (`Evaluation.CombineAsWritten`) | `exp` overflows at line 31, so `e = -inf`, with `we = 0`: `-inf * 0` is NaN, so the reward is NaN, and so are `reward_sum` and the score | a zero weight removes its term, so the reward is `ws * s` | medium, not executed | `Evaluation.ZeroTrackingWeightAsWritten` | `Evaluation.Combine` |
| trainer/evaluation.py:52 | `e * we + s * ws` multiplies the stabilization reward by `ws` even when `ws` is 0 (`Evaluation.CombineAsWritten`) | `exp` overflows at line 42, so `s = -inf`, with `ws = 0`: `-inf * 0` is NaN, so the reward is NaN | a zero weight removes its term, so the reward is `we * e` | medium, not executed | `Evaluation.ZeroStabilizationWeightAsWritten` | `Evaluation.Combine` |

=== FILE: episode.dfy ===
/** `evaluate`: one pass (or `loop` passes) over a motion against the
    simulation, accumulating the reward of every frame up to the looped
    duration and normalising by the expected number of frames. Applying the
    joint targets and stepping the simulation are external effects: the model
    receives, with each frame, the robot state they produced. */
module Episode {
  import opened Wrappers
  import opened ExtReals
  import opened Geometry
  import opened Evaluation

  /** A frame of the motion: target joint positions (one entry per joint of
      the robot's joint registry) and the effector targets. */
  datatype Frame = Frame(positions: seq<real>, effectors: seq<Effector>)

  /** One `(t, frame)` item of `motion.frames(scene.dt)`, together with the
      robot state after `apply_joints(robot, frame.positions)` and
      `scene.step()`. */
  datatype Step = Step(t: real, frame: Frame, robot: Robot)

  /** The loop's state: `reward_sum` and `pre_positions`. */
  datatype Progress = Progress(sum: ExtReal, pre: Option<seq<real>>)

  /** Why `evaluate` produces no score. Exceptions from the simulator and the
      motion's frame generator are not among them: every step is an input
      that has already succeeded. */
  datatype EpisodeError =
    | RewardFailed(cause: RewardError)
    | ZeroTimestep       // `motion.length() / scene.dt` with `dt == 0`
    | NoExpectedFrames   // `reward_sum / math.ceil(...)` with a zero ceiling

  /** The default of `evaluate`'s `loop` argument. */
  const DefaultLoop: int := 2

  /** `math.ceil`: the least integer not below `x`. */
  function Ceil(x: real): (n: int)
    ensures n as real - 1.0 < x <= n as real
  {
    -((-x).Floor)
  }

  /** The loop body, repeated until the frames run out or a frame lies
      strictly past `limit`. */
  function Run(how: Summation, env: Env, motion: Motion, steps: seq<Step>, limit: real, p: Progress, w: Weights): Result<Progress, RewardError>
    requires Valid(env.math)
    decreases |steps|
  {
    if steps == [] || steps[0].t > limit then Success(p)
    else
      var s := steps[0];
      var r :- CalcReward(how, env, motion, s.robot, s.frame.effectors, s.frame.positions, p.pre, w);
      Run(how, env, motion, steps[1..], limit, Progress(Add(p.sum, r), Some(s.frame.positions)), w)
  }

  /** The expected number of frames over the looped duration,
      `ceil(length / dt * loop)`. */
  function ExpectedFrames(motion: Motion, dt: real, loop: int): int
    requires dt != 0.0
  {
    Ceil(motion.length / dt * loop as real)
  }

  /** The score: the reward sum divided by the expected number of frames.
      Fails where that division, or the one computing the frame count,
      divides by zero. */
  function Normalise(sum: ExtReal, motion: Motion, dt: real, loop: int): (r: Result<ExtReal, EpisodeError>)
    ensures r.Success? <==> dt != 0.0 && ExpectedFrames(motion, dt, loop) != 0
    ensures r.Success? && sum.Fin? ==> r.value.Fin? && r.value.v * ExpectedFrames(motion, dt, loop) as real == sum.v
    ensures r.Success? && sum == Fin(0.0) ==> r.value == Fin(0.0)
  {
    if dt == 0.0 then Failure(ZeroTimestep)
    else
      var n := ExpectedFrames(motion, dt, loop);
      if n == 0 then Failure(NoExpectedFrames) else Success(DivBy(sum, n as real))
  }

  /** What follows the loop: its error propagates, otherwise the sum is normalised. */
  function Finish(run: Result<Progress, RewardError>, motion: Motion, dt: real, loop: int): (r: Result<ExtReal, EpisodeError>)
    ensures run.Failure? ==> r == Failure(RewardFailed(run.error))
    ensures r.Success? ==> run.Success? && dt != 0.0 && ExpectedFrames(motion, dt, loop) != 0
  {
    match run
    case Failure(e) => Failure(RewardFailed(e))
    case Success(p) => Normalise(p.sum, motion, dt, loop)
  }

  /** `evaluate(scene, motion, robot, loop, **w)`, with `initialPre` the
      result of `try_get_pre_positions`. */
  function Evaluate(how: Summation, env: Env, motion: Motion, dt: real, steps: seq<Step>, initialPre: Option<seq<real>>, loop: int, w: Weights): (r: Result<ExtReal, EpisodeError>)
    requires Valid(env.math)
    ensures r.Success? ==> dt != 0.0 && ExpectedFrames(motion, dt, loop) != 0
  {
    Finish(Run(how, env, motion, steps, Limit(motion, loop), Progress(Fin(0.0), initialPre), w), motion, dt, loop)
  }

  /** The loop stops at the first frame with `t > motion.length() * loop`. */
  function Limit(motion: Motion, loop: int): real {
    motion.length * loop as real
  }

  /** `evaluate` is `Finish` applied to the loop's outcome. */
  lemma EvaluateIsFinishedRun(how: Summation, env: Env, motion: Motion, dt: real, steps: seq<Step>, initialPre: Option<seq<real>>, loop: int, w: Weights)
    requires Valid(env.math)
    ensures Evaluate(how, env, motion, dt, steps, initialPre, loop, w)
         == Finish(Run(how, env, motion, steps, Limit(motion, loop), Progress(Fin(0.0), initialPre), w), motion, dt, loop)
  {
  }

  /** The number of frames scored: the frames before the first one strictly
      past `limit`. */
  function ScoredCount(steps: seq<Step>, limit: real): (k: nat)
    ensures k <= |steps|
    ensures forall i | 0 <= i < k :: steps[i].t <= limit
    ensures k < |steps| ==> steps[k].t > limit
    decreases |steps|
  {
    if steps == [] || steps[0].t > limit then 0 else 1 + ScoredCount(steps[1..], limit)
  }

  /** The previous positions seen by frame `i`: the initial ones for the
      first frame, otherwise the positions of frame `i - 1`. */
  function PreAt(steps: seq<Step>, initialPre: Option<seq<real>>, i: nat): Option<seq<real>>
    requires i <= |steps|
  {
    if i == 0 then initialPre else Some(steps[i - 1].frame.positions)
  }

  /** The reward of frame `i`, computed independently of the loop. */
  function RewardAt(how: Summation, env: Env, motion: Motion, steps: seq<Step>, initialPre: Option<seq<real>>, i: nat, w: Weights): Result<ExtReal, RewardError>
    requires Valid(env.math) && i < |steps|
  {
    CalcReward(how, env, motion, steps[i].robot, steps[i].frame.effectors, steps[i].frame.positions, PreAt(steps, initialPre, i), w)
  }

  /** The sum of the rewards of the first `k` frames, failing with the first
      frame that fails. */
  function SumRewards(how: Summation, env: Env, motion: Motion, steps: seq<Step>, initialPre: Option<seq<real>>, k: nat, w: Weights): Result<ExtReal, RewardError>
    requires Valid(env.math) && k <= |steps|
    decreases k
  {
    if k == 0 then Success(Fin(0.0))
    else
      var s :- SumRewards(how, env, motion, steps, initialPre, k - 1, w);
      var r :- RewardAt(how, env, motion, steps, initialPre, k - 1, w);
      Success(Add(s, r))
  }

  /** What the loop ends with after scoring the first `k` frames. */
  function Expected(how: Summation, env: Env, motion: Motion, steps: seq<Step>, initialPre: Option<seq<real>>, k: nat, w: Weights): Result<Progress, RewardError>
    requires Valid(env.math) && k <= |steps|
  {
    match SumRewards(how, env, motion, steps, initialPre, k, w)
    case Failure(e) => Failure(e)
    case Success(total) => Success(Progress(total, PreAt(steps, initialPre, k)))
  }

  /** Once the sum fails it stays failed with the same error. */
  lemma {:induction false} SumFailurePersists(how: Summation, env: Env, motion: Motion, steps: seq<Step>, initialPre: Option<seq<real>>, j: nat, k: nat, w: Weights)
    requires Valid(env.math) && j <= k <= |steps|
    requires SumRewards(how, env, motion, steps, initialPre, j, w).Failure?
    ensures SumRewards(how, env, motion, steps, initialPre, k, w) == SumRewards(how, env, motion, steps, initialPre, j, w)
    decreases k
  {
    if j < k {
      SumFailurePersists(how, env, motion, steps, initialPre, j, k - 1, w);
    }
  }

  /** The loop from frame `j` on, entered with the reference sum of the
      first `j` frames and frame `j - 1`'s positions, ends as the reference
      says: with the sum of all scored frames and the last scored frame's
      positions. */
  lemma {:induction false} RunFrom(how: Summation, env: Env, motion: Motion, steps: seq<Step>, limit: real, initialPre: Option<seq<real>>, j: nat, w: Weights)
    requires Valid(env.math)
    requires j <= ScoredCount(steps, limit)
    requires SumRewards(how, env, motion, steps, initialPre, j, w).Success?
    ensures Run(how, env, motion, steps[j..], limit, Progress(SumRewards(how, env, motion, steps, initialPre, j, w).value, PreAt(steps, initialPre, j)), w)
         == Expected(how, env, motion, steps, initialPre, ScoredCount(steps, limit), w)
    decreases |steps| - j
  {
    var k := ScoredCount(steps, limit);
    var p := Progress(SumRewards(how, env, motion, steps, initialPre, j, w).value, PreAt(steps, initialPre, j));
    if j == k {
      assert steps[j..] == [] || steps[j..][0].t > limit;
    } else {
      assert steps[j..][0] == steps[j];
      assert steps[j].t <= limit;
      var r := RewardAt(how, env, motion, steps, initialPre, j, w);
      if r.Failure? {
        assert SumRewards(how, env, motion, steps, initialPre, j + 1, w) == Failure(r.error);
        SumFailurePersists(how, env, motion, steps, initialPre, j + 1, k, w);
      } else {
        assert steps[j..][1..] == steps[j + 1..];
        assert PreAt(steps, initialPre, j + 1) == Some(steps[j].frame.positions);
        RunFrom(how, env, motion, steps, limit, initialPre, j + 1, w);
      }
    }
  }

  /** The loop scores exactly the frames before the first one past the
      limit, in order, each against the previous frame's positions; it ends
      with their reward sum and with `pre_positions` holding the last scored
      frame's positions (or the initial ones when none was scored). */
  lemma RunMatchesReference(how: Summation, env: Env, motion: Motion, steps: seq<Step>, limit: real, initialPre: Option<seq<real>>, w: Weights)
    requires Valid(env.math)
    ensures Run(how, env, motion, steps, limit, Progress(Fin(0.0), initialPre), w)
         == Expected(how, env, motion, steps, initialPre, ScoredCount(steps, limit), w)
  {
    assert steps[0..] == steps;
    RunFrom(how, env, motion, steps, limit, initialPre, 0, w);
  }

  /** The score is the reference sum of the scored frames divided by the
      expected frame count `ceil(length / dt * loop)`, not by the number of
      frames scored. */
  lemma EvaluateMatchesReference(how: Summation, env: Env, motion: Motion, dt: real, steps: seq<Step>, initialPre: Option<seq<real>>, loop: int, w: Weights)
    requires Valid(env.math)
    ensures var total := SumRewards(how, env, motion, steps, initialPre, ScoredCount(steps, Limit(motion, loop)), w);
      Evaluate(how, env, motion, dt, steps, initialPre, loop, w)
        == if total.Failure? then Failure(RewardFailed(total.error)) else Normalise(total.value, motion, dt, loop)
  {
    RunMatchesReference(how, env, motion, steps, Limit(motion, loop), initialPre, w);
  }

  /** Frames after the first one past the limit are never looked at. */
  lemma {:induction false} RunStopsAtFirstLateFrame(how: Summation, env: Env, motion: Motion, steps: seq<Step>, limit: real, p: Progress, w: Weights)
    requires Valid(env.math)
    ensures Run(how, env, motion, steps, limit, p, w) == Run(how, env, motion, steps[..ScoredCount(steps, limit)], limit, p, w)
    decreases |steps|
  {
    var k := ScoredCount(steps, limit);
    if k > 0 {
      var prefix := steps[..k];
      assert prefix[0] == steps[0];
      assert prefix[1..] == steps[1..][..k - 1];
      var s := steps[0];
      var r := CalcReward(how, env, motion, s.robot, s.frame.effectors, s.frame.positions, p.pre, w);
      if r.Success? {
        RunStopsAtFirstLateFrame(how, env, motion, steps[1..], limit, Progress(Add(p.sum, r.value), Some(s.frame.positions)), w);
      }
    }
  }

  /** The score depends only on the frames up to the first one past the
      looped duration; a frame at exactly `length * loop` is still scored. */
  lemma EvaluateStopsAtFirstLateFrame(how: Summation, env: Env, motion: Motion, dt: real, steps: seq<Step>, initialPre: Option<seq<real>>, loop: int, w: Weights)
    requires Valid(env.math)
    ensures Evaluate(how, env, motion, dt, steps, initialPre, loop, w)
         == Evaluate(how, env, motion, dt, steps[..ScoredCount(steps, Limit(motion, loop))], initialPre, loop, w)
  {
    var limit := Limit(motion, loop);
    RunStopsAtFirstLateFrame(how, env, motion, steps, limit, Progress(Fin(0.0), initialPre), w);
    EvaluateIsFinishedRun(how, env, motion, dt, steps, initialPre, loop, w);
    EvaluateIsFinishedRun(how, env, motion, dt, steps[..ScoredCount(steps, limit)], initialPre, loop, w);
  }

  /** Every frame's effectors carry non-negative weights in the motion. */
  ghost predicate AllNonNegativeWeights(motion: Motion, steps: seq<Step>) {
    forall i | 0 <= i < |steps| :: NonNegativeWeights(motion, steps[i].frame.effectors)
  }

  /** With non-negative weights the running `reward_sum` keeps the sign of
      every frame's reward: at most zero (or `-inf`), or, in the source's sum
      with a zero weight, NaN once a NaN reward has been added. */
  lemma {:induction false} RunNonPositive(how: Summation, env: Env, motion: Motion, steps: seq<Step>, limit: real, p: Progress, w: Weights)
    requires Valid(env.math)
    requires NonNegative(w) && AllNonNegativeWeights(motion, steps) && SignKept(how, w, p.sum)
    ensures Run(how, env, motion, steps, limit, p, w).Success? ==> SignKept(how, w, Run(how, env, motion, steps, limit, p, w).value.sum)
    decreases |steps|
  {
    if steps != [] && steps[0].t <= limit {
      var s := steps[0];
      var r := CalcReward(how, env, motion, s.robot, s.frame.effectors, s.frame.positions, p.pre, w);
      CalcRewardNonPositive(how, env, motion, s.robot, s.frame.effectors, s.frame.positions, p.pre, w);
      if r.Success? {
        if AtMost(p.sum, 0.0) && AtMost(r.value, 0.0) {
          AddAtMost(p.sum, r.value, 0.0, 0.0);
        }
        assert AllNonNegativeWeights(motion, steps[1..]) by {
          forall i | 0 <= i < |steps| - 1 ensures steps[1..][i] == steps[i + 1] { }
        }
        RunNonPositive(how, env, motion, steps[1..], limit, Progress(Add(p.sum, r.value), Some(s.frame.positions)), w);
      }
    }
  }

  /** With non-negative weights and a positive timestep, a motion of
      non-negative length played a non-negative number of times scores at
      most zero (or `-inf`); the source's sum can also score NaN, but only
      with a zero `we` or `ws`. */
  lemma EvaluateNonPositive(how: Summation, env: Env, motion: Motion, dt: real, steps: seq<Step>, initialPre: Option<seq<real>>, loop: int, w: Weights)
    requires Valid(env.math)
    requires NonNegative(w) && AllNonNegativeWeights(motion, steps)
    requires dt > 0.0 && motion.length >= 0.0 && loop >= 0
    ensures Evaluate(how, env, motion, dt, steps, initialPre, loop, w).Success?
        ==> SignKept(how, w, Evaluate(how, env, motion, dt, steps, initialPre, loop, w).value)
  {
    var limit := Limit(motion, loop);
    var p := Progress(Fin(0.0), initialPre);
    RunNonPositive(how, env, motion, steps, limit, p, w);
    var run := Run(how, env, motion, steps, limit, p, w);
    if run.Success? {
      var n := ExpectedFrames(motion, dt, loop);
      assert motion.length / dt >= 0.0;
      assert n >= 0;
      if n != 0 && AtMost(run.value.sum, 0.0) {
        DivAtMostZero(run.value.sum, n as real);
      }
    }
  }

  /** With the default weights and the default two passes, the source's
      score is at most zero (or `-inf`) and never NaN. */
  lemma DefaultScoreNonPositive(env: Env, motion: Motion, dt: real, steps: seq<Step>, initialPre: Option<seq<real>>)
    requires Valid(env.math)
    requires AllNonNegativeWeights(motion, steps)
    requires dt > 0.0 && motion.length >= 0.0
    ensures Evaluate(AsWritten, env, motion, dt, steps, initialPre, DefaultLoop, Defaults).Success?
        ==> AtMost(Evaluate(AsWritten, env, motion, dt, steps, initialPre, DefaultLoop, Defaults).value, 0.0)
  {
    DefaultWeights();
    EvaluateNonPositive(AsWritten, env, motion, dt, steps, initialPre, DefaultLoop, Defaults);
  }

  /** Frame `i` is tracked perfectly: at least one effector carries a
      target, every target is met exactly, and the frame carries the same
      non-empty joint targets as the frame before it (or there is none). */
  ghost predicate PerfectFrame(env: Env, motion: Motion, steps: seq<Step>, initialPre: Option<seq<real>>, i: nat)
    requires i < |steps|
  {
    var f := steps[i].frame;
    var pre := PreAt(steps, initialPre, i);
    && (exists j | 0 <= j < |f.effectors| :: Contributes(f.effectors[j]))
    && AllTracked(env, motion, steps[i].robot, f.effectors)
    && (pre.None? || (pre.value == f.positions && |f.positions| > 0))
  }

  /** A perfectly tracked frame's reward is zero, whatever the weights. */
  lemma PerfectFrameRewardZero(how: Summation, env: Env, motion: Motion, steps: seq<Step>, initialPre: Option<seq<real>>, i: nat, w: Weights)
    requires Valid(env.math) && i < |steps|
    requires PerfectFrame(env, motion, steps, initialPre, i)
    ensures RewardAt(how, env, motion, steps, initialPre, i, w) == Success(Fin(0.0))
  {
    var f := steps[i].frame;
    var robot := steps[i].robot;
    var pre := PreAt(steps, initialPre, i);
    TrackedRewardZero(env, motion, robot, f.effectors, w.ke, w.wl, w.wr);
    CalcRewardOfParts(how, env, motion, robot, f.effectors, f.positions, pre, w, Fin(0.0), Fin(0.0));
  }

  lemma {:induction false} PerfectSumIsZero(how: Summation, env: Env, motion: Motion, steps: seq<Step>, initialPre: Option<seq<real>>, j: nat, w: Weights)
    requires Valid(env.math) && j <= |steps|
    requires forall i | 0 <= i < j :: PerfectFrame(env, motion, steps, initialPre, i)
    ensures SumRewards(how, env, motion, steps, initialPre, j, w) == Success(Fin(0.0))
    decreases j
  {
    if j == 0 {
      assert SumRewards(how, env, motion, steps, initialPre, 0, w) == Success(Fin(0.0));
    } else {
      assert PerfectFrame(env, motion, steps, initialPre, j - 1);
      PerfectSumIsZero(how, env, motion, steps, initialPre, j - 1, w);
      PerfectFrameRewardZero(how, env, motion, steps, initialPre, j - 1, w);
      SumRewardsStep(how, env, motion, steps, initialPre, j - 1, w, Fin(0.0), Fin(0.0));
      assert Add(Fin(0.0), Fin(0.0)) == Fin(0.0);
    }
  }

  /** One more frame adds its reward to the sum of the frames before it. */
  lemma SumRewardsStep(how: Summation, env: Env, motion: Motion, steps: seq<Step>, initialPre: Option<seq<real>>, i: nat, w: Weights, total: ExtReal, r: ExtReal)
    requires Valid(env.math) && i < |steps|
    requires SumRewards(how, env, motion, steps, initialPre, i, w) == Success(total)
    requires RewardAt(how, env, motion, steps, initialPre, i, w) == Success(r)
    ensures SumRewards(how, env, motion, steps, initialPre, i + 1, w) == Success(Add(total, r))
  {
  }

  /** A robot that meets every target exactly, on a motion whose scored
      frames each carry the same joint targets as the frame before, scores
      zero: every scored frame's tracking and stabilization rewards are zero. */
  lemma PerfectEpisodeScoresZero(how: Summation, env: Env, motion: Motion, dt: real, steps: seq<Step>, initialPre: Option<seq<real>>, loop: int, w: Weights)
    requires Valid(env.math)
    requires forall i | 0 <= i < ScoredCount(steps, Limit(motion, loop)) :: PerfectFrame(env, motion, steps, initialPre, i)
    ensures Evaluate(how, env, motion, dt, steps, initialPre, loop, w) == Normalise(Fin(0.0), motion, dt, loop)
    ensures Evaluate(how, env, motion, dt, steps, initialPre, loop, w).Success?
        ==> Evaluate(how, env, motion, dt, steps, initialPre, loop, w).value == Fin(0.0)
  {
    var k := ScoredCount(steps, Limit(motion, loop));
    PerfectSumIsZero(how, env, motion, steps, initialPre, k, w);
    EvaluateMatchesReference(how, env, motion, dt, steps, initialPre, loop, w);
    var total := SumRewards(how, env, motion, steps, initialPre, k, w);
    assert total == Success(Fin(0.0));
    assert Evaluate(how, env, motion, dt, steps, initialPre, loop, w) == Normalise(total.value, motion, dt, loop);
  }
}

=== FILE: evaluation.dfy ===
/** The reward functions of the evaluation module: effector tracking
    (`calc_effector_reward`), stabilization (`calc_stabilization_reward`) and
    their weighted sum (`calc_reward`). Rewards are floats, so they may be
    `-inf` when `exp` overflows; errors that Python raises (a division by
    zero) are `Failure` results. */
module Evaluation {
  import opened Wrappers
  import opened ExtReals
  import opened Geometry

  /** One effector's target in a frame: a location and/or a rotation. */
  datatype EffectorTarget = EffectorTarget(location: Option<Vec3>, rotation: Option<Quaternion>)

  /** An entry of a frame's effector map; a frame lists them in iteration order. */
  datatype Effector = Effector(name: string, target: EffectorTarget)

  datatype EffectorWeight = EffectorWeight(location: real, rotation: real)

  datatype EffectorType = EffectorType(location: RefFrame, rotation: RefFrame)

  /** What the reward code reads from a motion: its duration and its
      per-effector weight and type tables. */
  datatype Motion = Motion(
    length: real,
    effectorWeight: string -> EffectorWeight,
    effectorType: string -> EffectorType)

  /** The robot as the reward code sees it after a simulation step: the world
      pose of every link, and the name of the root link. */
  datatype Robot = Robot(linkPose: string -> Pose, rootLink: string)

  /** The library functions the reward code calls. */
  datatype Env = Env(math: MathLib, select: Selector)

  /** The keyword weights of `calc_reward`. */
  datatype Weights = Weights(we: real, ws: real, ke: real, ks: real, wl: real, wr: real)

  const Defaults: Weights := Weights(we := 1.0, ws := 0.1, ke := 1.0, ks := 1.0, wl := 1.0, wr := 0.005)

  predicate NonNegative(w: Weights) {
    w.we >= 0.0 && w.ws >= 0.0 && w.ke >= 0.0 && w.ks >= 0.0 && w.wl >= 0.0 && w.wr >= 0.0
  }

  /** The divisions by zero the reward code can raise. */
  datatype RewardError =
    | NoContributingEffector  // `ke * diff / c` with `c == 0`
    | NoJoints                // `ks * change_sum / len(positions)` with no joints
    | JointSetMismatch        // current and previous positions name different joints

  /** The accumulated squared error `diff` and the number of terms `c`. */
  datatype Tally = Tally(diff: real, count: nat)

  predicate HasLocation(e: Effector) {
    e.target.location.Some?
  }

  predicate HasRotation(e: Effector) {
    e.target.rotation.Some?
  }

  predicate Contributes(e: Effector) {
    HasLocation(e) || HasRotation(e)
  }

  /** Indices of the effectors that carry a location target. */
  function LocationIndices(effs: seq<Effector>): set<int> {
    set i | 0 <= i < |effs| && HasLocation(effs[i])
  }

  /** Indices of the effectors that carry a rotation target. */
  function RotationIndices(effs: seq<Effector>): set<int> {
    set i | 0 <= i < |effs| && HasRotation(effs[i])
  }

  /** Distance between an effector's position and its resolved location target. */
  function LocationDistance(env: Env, motion: Motion, robot: Robot, e: Effector): real
    requires HasLocation(e)
  {
    var pose := robot.linkPose(e.name);
    var root := robot.linkPose(robot.rootLink);
    var target := env.select.location(motion.effectorType(e.name).location, e.target.location.value, root);
    env.math.norm(Sub(pose.vector, target))
  }

  /** Intrinsic distance between an effector's resolved rotation target and
      its orientation, reordered from link-state to library order. */
  function RotationDistance(env: Env, motion: Motion, robot: Robot, e: Effector): real
    requires HasRotation(e)
  {
    var pose := robot.linkPose(e.name);
    var root := robot.linkPose(robot.rootLink);
    var target := env.select.rotation(motion.effectorType(e.name).rotation, e.target.rotation.value, root);
    env.math.rotationDistance(target, ToWxyz(pose.quaternion))
  }

  /** The location term of `diff`: the squared location distance, scaled by
      `wl` and the effector's location weight. */
  function LocationTerm(env: Env, motion: Motion, robot: Robot, e: Effector, wl: real): real
    requires HasLocation(e)
  {
    wl * Square(LocationDistance(env, motion, robot, e)) * motion.effectorWeight(e.name).location
  }

  /** The rotation term of `diff`: the squared rotation distance, scaled by
      `wr` and the effector's rotation weight. */
  function RotationTerm(env: Env, motion: Motion, robot: Robot, e: Effector, wr: real): real
    requires HasRotation(e)
  {
    wr * Square(RotationDistance(env, motion, robot, e)) * motion.effectorWeight(e.name).rotation
  }

  /** What one effector adds to `diff` and to `c`. */
  function Contribution(env: Env, motion: Motion, robot: Robot, e: Effector, wl: real, wr: real): Tally {
    var loc := if HasLocation(e) then Tally(LocationTerm(env, motion, robot, e, wl), 1) else Tally(0.0, 0);
    var rot := if HasRotation(e) then Tally(RotationTerm(env, motion, robot, e, wr), 1) else Tally(0.0, 0);
    Tally(loc.diff + rot.diff, loc.count + rot.count)
  }

  /** `diff` and `c` after the loop over a frame's effectors, in iteration order. */
  function Accumulate(env: Env, motion: Motion, robot: Robot, effs: seq<Effector>, wl: real, wr: real): Tally
    decreases |effs|
  {
    if effs == [] then Tally(0.0, 0)
    else
      var before := Accumulate(env, motion, robot, effs[..|effs| - 1], wl, wr);
      var last := Contribution(env, motion, robot, effs[|effs| - 1], wl, wr);
      Tally(before.diff + last.diff, before.count + last.count)
  }

  /** One effector adds one term per target it carries. */
  lemma ContributionCount(env: Env, motion: Motion, robot: Robot, e: Effector, wl: real, wr: real)
    ensures Contribution(env, motion, robot, e, wl, wr).count
         == (if HasLocation(e) then 1 else 0) + (if HasRotation(e) then 1 else 0)
  {
  }

  /** Appending an effector adds at most its own index to each index set. */
  lemma IndicesSnoc(effs: seq<Effector>)
    requires effs != []
    ensures var n := |effs|;
      && LocationIndices(effs) == LocationIndices(effs[..n - 1]) + (if HasLocation(effs[n - 1]) then {n - 1} else {})
      && RotationIndices(effs) == RotationIndices(effs[..n - 1]) + (if HasRotation(effs[n - 1]) then {n - 1} else {})
      && n - 1 !in LocationIndices(effs[..n - 1]) && n - 1 !in RotationIndices(effs[..n - 1])
  {
  }

  /** The counter `c` is the number of effectors with a location target plus
      the number with a rotation target: an effector with both counts twice. */
  lemma {:induction false} CountIsTargetsPresent(env: Env, motion: Motion, robot: Robot, effs: seq<Effector>, wl: real, wr: real)
    ensures Accumulate(env, motion, robot, effs, wl, wr).count == |LocationIndices(effs)| + |RotationIndices(effs)|
    decreases |effs|
  {
    if effs != [] {
      var n := |effs|;
      CountIsTargetsPresent(env, motion, robot, effs[..n - 1], wl, wr);
      ContributionCount(env, motion, robot, effs[n - 1], wl, wr);
      IndicesSnoc(effs);
    }
  }

  /** No term is counted exactly when no effector has a location or rotation target. */
  lemma NoCountIffNoTargets(env: Env, motion: Motion, robot: Robot, effs: seq<Effector>, wl: real, wr: real)
    ensures Accumulate(env, motion, robot, effs, wl, wr).count == 0
        <==> forall i | 0 <= i < |effs| :: !Contributes(effs[i])
  {
    CountIsTargetsPresent(env, motion, robot, effs, wl, wr);
    if Accumulate(env, motion, robot, effs, wl, wr).count == 0 {
      forall i | 0 <= i < |effs|
        ensures !Contributes(effs[i])
      {
        assert i !in LocationIndices(effs) && i !in RotationIndices(effs);
      }
    } else {
      if |LocationIndices(effs)| > 0 {
        var i :| i in LocationIndices(effs);
        assert Contributes(effs[i]);
      } else {
        var i :| i in RotationIndices(effs);
        assert Contributes(effs[i]);
      }
    }
  }

  /** The motion's weights of every listed effector are non-negative. */
  ghost predicate NonNegativeWeights(motion: Motion, effs: seq<Effector>) {
    forall i | 0 <= i < |effs| ::
      motion.effectorWeight(effs[i].name).location >= 0.0 && motion.effectorWeight(effs[i].name).rotation >= 0.0
  }

  /** The motion's weights of every listed effector are positive. */
  ghost predicate PositiveWeights(motion: Motion, effs: seq<Effector>) {
    forall i | 0 <= i < |effs| ::
      motion.effectorWeight(effs[i].name).location > 0.0 && motion.effectorWeight(effs[i].name).rotation > 0.0
  }

  /** Every target the effector carries is met exactly. */
  predicate TrackedExactly(env: Env, motion: Motion, robot: Robot, e: Effector) {
    && (HasLocation(e) ==> LocationDistance(env, motion, robot, e) == 0.0)
    && (HasRotation(e) ==> RotationDistance(env, motion, robot, e) == 0.0)
  }

  /** One effector's contribution is a sum of non-negative terms. */
  lemma ContributionNonNegative(env: Env, motion: Motion, robot: Robot, e: Effector, wl: real, wr: real)
    requires Valid(env.math)
    requires wl >= 0.0 && wr >= 0.0
    requires motion.effectorWeight(e.name).location >= 0.0 && motion.effectorWeight(e.name).rotation >= 0.0
    ensures Contribution(env, motion, robot, e, wl, wr).diff >= 0.0
  {
    var w := motion.effectorWeight(e.name);
    if HasLocation(e) {
      var d := LocationDistance(env, motion, robot, e);
      SquareFacts(d);
      ProductNonNegative(wl, Square(d), w.location);
    }
    if HasRotation(e) {
      var d := RotationDistance(env, motion, robot, e);
      SquareFacts(d);
      ProductNonNegative(wr, Square(d), w.rotation);
    }
  }

  /** With positive weights, an effector contributes zero error exactly when
      it meets all its targets. */
  lemma ContributionZeroIffTracked(env: Env, motion: Motion, robot: Robot, e: Effector, wl: real, wr: real)
    requires Valid(env.math)
    requires wl > 0.0 && wr > 0.0
    requires motion.effectorWeight(e.name).location > 0.0 && motion.effectorWeight(e.name).rotation > 0.0
    ensures Contribution(env, motion, robot, e, wl, wr).diff == 0.0 <==> TrackedExactly(env, motion, robot, e)
  {
    var w := motion.effectorWeight(e.name);
    ContributionNonNegative(env, motion, robot, e, wl, wr);
    if HasLocation(e) {
      var d := LocationDistance(env, motion, robot, e);
      SquareFacts(d);
      ProductNonNegative(wl, Square(d), w.location);
      ProductZeroIffMiddle(wl, Square(d), w.location);
    }
    if HasRotation(e) {
      var d := RotationDistance(env, motion, robot, e);
      SquareFacts(d);
      ProductNonNegative(wr, Square(d), w.rotation);
      ProductZeroIffMiddle(wr, Square(d), w.rotation);
    }
  }

  /** Every term added to `diff` is a non-negative weight product times a
      squared distance, so `diff` is non-negative. */
  lemma {:induction false} DiffNonNegative(env: Env, motion: Motion, robot: Robot, effs: seq<Effector>, wl: real, wr: real)
    requires Valid(env.math)
    requires wl >= 0.0 && wr >= 0.0 && NonNegativeWeights(motion, effs)
    ensures Accumulate(env, motion, robot, effs, wl, wr).diff >= 0.0
    decreases |effs|
  {
    if effs != [] {
      var n := |effs|;
      assert NonNegativeWeights(motion, effs[..n - 1]) by {
        forall i | 0 <= i < n - 1 ensures effs[..n - 1][i] == effs[i] { }
      }
      DiffNonNegative(env, motion, robot, effs[..n - 1], wl, wr);
      ContributionNonNegative(env, motion, robot, effs[n - 1], wl, wr);
    }
  }

  /** Every effector of the frame meets all its targets exactly. */
  ghost predicate AllTracked(env: Env, motion: Motion, robot: Robot, effs: seq<Effector>) {
    forall i | 0 <= i < |effs| :: TrackedExactly(env, motion, robot, effs[i])
  }

  lemma AllTrackedSnoc(env: Env, motion: Motion, robot: Robot, effs: seq<Effector>)
    requires effs != []
    ensures AllTracked(env, motion, robot, effs)
        <==> AllTracked(env, motion, robot, effs[..|effs| - 1]) && TrackedExactly(env, motion, robot, effs[|effs| - 1])
  {
    var n := |effs|;
    if AllTracked(env, motion, robot, effs[..n - 1]) && TrackedExactly(env, motion, robot, effs[n - 1]) {
      forall i | 0 <= i < n ensures TrackedExactly(env, motion, robot, effs[i]) {
        if i < n - 1 {
          assert effs[..n - 1][i] == effs[i];
        }
      }
    }
  }

  /** An effector that meets all its targets adds nothing to `diff`, whatever
      the weights. */
  lemma TrackedContributionZero(env: Env, motion: Motion, robot: Robot, e: Effector, wl: real, wr: real)
    requires TrackedExactly(env, motion, robot, e)
    ensures Contribution(env, motion, robot, e, wl, wr).diff == 0.0
  {
    if HasLocation(e) {
      SquareFacts(LocationDistance(env, motion, robot, e));
    }
    if HasRotation(e) {
      SquareFacts(RotationDistance(env, motion, robot, e));
    }
  }

  /** When every effector meets all its targets, `diff` is zero whatever the
      weights. */
  lemma {:induction false} TrackedDiffZero(env: Env, motion: Motion, robot: Robot, effs: seq<Effector>, wl: real, wr: real)
    requires AllTracked(env, motion, robot, effs)
    ensures Accumulate(env, motion, robot, effs, wl, wr).diff == 0.0
    decreases |effs|
  {
    if effs != [] {
      var n := |effs|;
      AllTrackedSnoc(env, motion, robot, effs);
      TrackedDiffZero(env, motion, robot, effs[..n - 1], wl, wr);
      TrackedContributionZero(env, motion, robot, effs[n - 1], wl, wr);
    }
  }

  /** With positive weights, `diff` is zero exactly when every effector meets
      all its targets. */
  lemma {:induction false} DiffZeroIffTracked(env: Env, motion: Motion, robot: Robot, effs: seq<Effector>, wl: real, wr: real)
    requires Valid(env.math)
    requires wl > 0.0 && wr > 0.0 && PositiveWeights(motion, effs)
    ensures Accumulate(env, motion, robot, effs, wl, wr).diff == 0.0 <==> AllTracked(env, motion, robot, effs)
    decreases |effs|
  {
    if effs != [] {
      var n := |effs|;
      var init := effs[..n - 1];
      assert PositiveWeights(motion, init) by {
        forall i | 0 <= i < n - 1 ensures init[i] == effs[i] { }
      }
      DiffZeroIffTracked(env, motion, robot, init, wl, wr);
      DiffNonNegative(env, motion, robot, init, wl, wr);
      ContributionZeroIffTracked(env, motion, robot, effs[n - 1], wl, wr);
      ContributionNonNegative(env, motion, robot, effs[n - 1], wl, wr);
      AllTrackedSnoc(env, motion, robot, effs);
    }
  }

  /** Reshapes an error `x` into the reward `1 - exp(x)`; `-inf` when `exp`
      overflows. */
  function Reshape(m: MathLib, x: real): (r: ExtReal)
    requires Valid(m)
    ensures r.NegInf? <==> m.overflows(x)
    ensures r.Fin? <==> !m.overflows(x)
    ensures x >= 0.0 ==> AtMost(r, 0.0)
    ensures x >= 0.0 ==> (r == Fin(0.0) <==> x == 0.0)
  {
    if m.overflows(x) then NegInf else Fin(1.0 - m.exp(x))
  }

  /** `calc_effector_reward`: the mean weighted squared tracking error over
      all contributing terms, scaled by `ke` and reshaped. Fails when no
      effector has a target, where the source divides by zero. */
  function EffectorReward(env: Env, motion: Motion, robot: Robot, effs: seq<Effector>, ke: real, wl: real, wr: real): (r: Result<ExtReal, RewardError>)
    requires Valid(env.math)
    ensures r.Failure? <==> forall i | 0 <= i < |effs| :: !Contributes(effs[i])
    ensures r.Failure? ==> r.error == NoContributingEffector
    ensures r.Success? ==> r.value.Fin? || r.value.NegInf?
  {
    var t := Accumulate(env, motion, robot, effs, wl, wr);
    NoCountIffNoTargets(env, motion, robot, effs, wl, wr);
    if t.count == 0 then Failure(NoContributingEffector)
    else Success(Reshape(env.math, ke * t.diff / t.count as real))
  }

  /** With non-negative weights the tracking reward is at most zero (or `-inf`). */
  lemma EffectorRewardNonPositive(env: Env, motion: Motion, robot: Robot, effs: seq<Effector>, ke: real, wl: real, wr: real)
    requires Valid(env.math)
    requires ke >= 0.0 && wl >= 0.0 && wr >= 0.0 && NonNegativeWeights(motion, effs)
    ensures EffectorReward(env, motion, robot, effs, ke, wl, wr).Success? ==> AtMost(EffectorReward(env, motion, robot, effs, ke, wl, wr).value, 0.0)
  {
    var t := Accumulate(env, motion, robot, effs, wl, wr);
    DiffNonNegative(env, motion, robot, effs, wl, wr);
    if t.count > 0 {
      assert ke * t.diff >= 0.0;
      assert ke * t.diff / t.count as real >= 0.0;
    }
  }

  /** With positive weights the tracking reward is exactly zero when, and
      only when, some effector has a target and every target is met exactly. */
  lemma EffectorRewardZeroIffTracked(env: Env, motion: Motion, robot: Robot, effs: seq<Effector>, ke: real, wl: real, wr: real)
    requires Valid(env.math)
    requires ke > 0.0 && wl > 0.0 && wr > 0.0 && PositiveWeights(motion, effs)
    ensures EffectorReward(env, motion, robot, effs, ke, wl, wr) == Success(Fin(0.0))
        <==> (exists i | 0 <= i < |effs| :: Contributes(effs[i]))
             && AllTracked(env, motion, robot, effs)
  {
    var t := Accumulate(env, motion, robot, effs, wl, wr);
    NoCountIffNoTargets(env, motion, robot, effs, wl, wr);
    DiffZeroIffTracked(env, motion, robot, effs, wl, wr);
    DiffNonNegative(env, motion, robot, effs, wl, wr);
    if t.count > 0 {
      var x := ke * t.diff / t.count as real;
      assert ke * t.diff >= 0.0;
      assert x >= 0.0;
      assert x == 0.0 <==> t.diff == 0.0;
    }
  }

  /** Perfect tracking of at least one target gives tracking reward zero,
      whatever `ke`, `wl`, `wr` and the effector weights. */
  lemma TrackedRewardZero(env: Env, motion: Motion, robot: Robot, effs: seq<Effector>, ke: real, wl: real, wr: real)
    requires Valid(env.math)
    requires (exists i | 0 <= i < |effs| :: Contributes(effs[i])) && AllTracked(env, motion, robot, effs)
    ensures EffectorReward(env, motion, robot, effs, ke, wl, wr) == Success(Fin(0.0))
  {
    TrackedDiffZero(env, motion, robot, effs, wl, wr);
    NoCountIffNoTargets(env, motion, robot, effs, wl, wr);
  }

  /** `change_sum`: the sum of squared changes of every joint position. */
  function ChangeSum(cur: seq<real>, pre: seq<real>): real
    requires |cur| == |pre|
    decreases |cur|
  {
    if cur == [] then 0.0
    else ChangeSum(cur[..|cur| - 1], pre[..|pre| - 1]) + Square(cur[|cur| - 1] - pre[|pre| - 1])
  }

  lemma {:induction false} ChangeSumNonNegative(cur: seq<real>, pre: seq<real>)
    requires |cur| == |pre|
    ensures ChangeSum(cur, pre) >= 0.0
    decreases |cur|
  {
    if cur != [] {
      ChangeSumNonNegative(cur[..|cur| - 1], pre[..|pre| - 1]);
      SquareFacts(cur[|cur| - 1] - pre[|pre| - 1]);
    }
  }

  /** The change sum is zero exactly when no joint moved. */
  lemma {:induction false} ChangeSumZeroIffStill(cur: seq<real>, pre: seq<real>)
    requires |cur| == |pre|
    ensures ChangeSum(cur, pre) == 0.0 <==> cur == pre
    decreases |cur|
  {
    if cur != [] {
      var n := |cur|;
      ChangeSumZeroIffStill(cur[..n - 1], pre[..n - 1]);
      ChangeSumNonNegative(cur[..n - 1], pre[..n - 1]);
      SquareFacts(cur[n - 1] - pre[n - 1]);
      assert cur == cur[..n - 1] + [cur[n - 1]];
      assert pre == pre[..n - 1] + [pre[n - 1]];
    }
  }

  /** `calc_stabilization_reward`: no penalty without previous positions;
      otherwise the mean squared joint change, scaled by `ks` and reshaped. */
  function StabilizationReward(env: Env, positions: seq<real>, pre: Option<seq<real>>, ks: real): (r: Result<ExtReal, RewardError>)
    requires Valid(env.math)
    ensures pre.None? ==> r == Success(Fin(0.0))
    ensures r.Failure? <==> pre.Some? && (|pre.value| != |positions| || |positions| == 0)
    ensures pre.Some? && pre.value == positions && |positions| > 0 ==> r == Success(Fin(0.0))
    ensures ks >= 0.0 && r.Success? ==> AtMost(r.value, 0.0)
  {
    match pre
    case None => Success(Fin(0.0))
    case Some(p) =>
      if |p| != |positions| then Failure(JointSetMismatch)
      else if |positions| == 0 then Failure(NoJoints)
      else
        ChangeSumNonNegative(positions, p);
        ChangeSumZeroIffStill(positions, p);
        var sum := ChangeSum(positions, p);
        assert ks >= 0.0 ==> ks * sum >= 0.0;
        Success(Reshape(env.math, ks * sum / |positions| as real))
  }

  /** With `ks > 0` the stabilization penalty vanishes exactly when no joint
      moved since the previous frame. */
  lemma StabilizationZeroIffStill(env: Env, positions: seq<real>, pre: seq<real>, ks: real)
    requires Valid(env.math)
    requires ks > 0.0 && |pre| == |positions| > 0
    ensures StabilizationReward(env, positions, Some(pre), ks) == Success(Fin(0.0)) <==> positions == pre
  {
    ChangeSumNonNegative(positions, pre);
    ChangeSumZeroIffStill(positions, pre);
    var sum := ChangeSum(positions, pre);
    assert ks * sum >= 0.0;
    assert ks * sum == 0.0 <==> sum == 0.0;
  }

  /** `e * we + s * ws` exactly as written, with float semantics: an
      infinite reward times a zero weight is NaN. */
  function CombineAsWritten(e: ExtReal, s: ExtReal, we: real, ws: real): ExtReal {
    Add(Scale(e, we), Scale(s, ws))
  }

  /** With `we == 0` the as-written sum drops the tracking term only when the
      tracking reward is finite: a `-inf` reward turns the sum into NaN. */
  lemma ZeroTrackingWeightAsWritten(e: ExtReal, s: ExtReal, ws: real)
    requires s.Fin?
    ensures CombineAsWritten(e, s, 0.0, ws) == Fin(ws * s.v) <==> e.Fin?
    ensures e.NegInf? ==> CombineAsWritten(e, s, 0.0, ws).NaN?
  {
  }

  /** Symmetrically, with `ws == 0` the as-written sum drops the stabilization
      term only when that reward is finite. */
  lemma ZeroStabilizationWeightAsWritten(e: ExtReal, s: ExtReal, we: real)
    requires e.Fin?
    ensures CombineAsWritten(e, s, we, 0.0) == Fin(we * e.v) <==> s.Fin?
    ensures s.NegInf? ==> CombineAsWritten(e, s, we, 0.0).NaN?
  {
  }

  /** A weighted reward term; a zero weight switches the term off entirely. */
  function Weighted(x: ExtReal, w: real): (r: ExtReal)
    ensures w == 0.0 ==> r == Fin(0.0)
    ensures x.Fin? ==> r == Fin(w * x.v)
  {
    if w == 0.0 then Fin(0.0) else Scale(x, w)
  }

  /** `e * we + s * ws` with a zero weight removing its term whatever the
      term's value. */
  function Combine(e: ExtReal, s: ExtReal, we: real, ws: real): (r: ExtReal)
    ensures we == 0.0 ==> r == Weighted(s, ws)
    ensures ws == 0.0 ==> r == Weighted(e, we)
    ensures e.Fin? && s.Fin? ==> r == Fin(we * e.v + ws * s.v)
  {
    Add(Weighted(e, we), Weighted(s, ws))
  }

  /** The corrected sum agrees with the source's wherever the source's does
      not multiply a non-finite reward by a zero weight. */
  lemma CombineAgreesAsWritten(e: ExtReal, s: ExtReal, we: real, ws: real)
    requires (we != 0.0 || e.Fin?) && (ws != 0.0 || s.Fin?)
    ensures Combine(e, s, we, ws) == CombineAsWritten(e, s, we, ws)
  {
  }

  /** How the weighted sum of `calc_reward` is formed: with float products as
      the source writes it, or with a zero weight removing its term. */
  datatype Summation = AsWritten | Corrected

  function WeightedSum(how: Summation, e: ExtReal, s: ExtReal, we: real, ws: real): ExtReal {
    match how
    case AsWritten => CombineAsWritten(e, s, we, ws)
    case Corrected => Combine(e, s, we, ws)
  }

  /** `calc_reward`: the weighted sum of the tracking and stabilization
      rewards, formed as `how` says. */
  function CalcReward(how: Summation, env: Env, motion: Motion, robot: Robot, effs: seq<Effector>, positions: seq<real>, pre: Option<seq<real>>, w: Weights): (r: Result<ExtReal, RewardError>)
    requires Valid(env.math)
    ensures r.Success? <==> EffectorReward(env, motion, robot, effs, w.ke, w.wl, w.wr).Success?
                            && StabilizationReward(env, positions, pre, w.ks).Success?
  {
    var e :- EffectorReward(env, motion, robot, effs, w.ke, w.wl, w.wr);
    var s :- StabilizationReward(env, positions, pre, w.ks);
    Success(WeightedSum(how, e, s, w.we, w.ws))
  }

  /** A non-positive reward under a non-negative weight stays non-positive. */
  lemma WeightedAtMostZero(x: ExtReal, w: real)
    requires AtMost(x, 0.0) && w >= 0.0
    ensures AtMost(Weighted(x, w), 0.0)
  {
    if w > 0.0 {
      ScaleAtMostZero(x, w);
    }
  }

  /** `calc_reward` combines whatever its two parts return. */
  lemma CalcRewardOfParts(how: Summation, env: Env, motion: Motion, robot: Robot, effs: seq<Effector>, positions: seq<real>, pre: Option<seq<real>>, w: Weights, e: ExtReal, s: ExtReal)
    requires Valid(env.math)
    requires EffectorReward(env, motion, robot, effs, w.ke, w.wl, w.wr) == Success(e)
    requires StabilizationReward(env, positions, pre, w.ks) == Success(s)
    ensures CalcReward(how, env, motion, robot, effs, positions, pre, w) == Success(WeightedSum(how, e, s, w.we, w.ws))
  {
  }

  /** `calc_reward` fails with the tracking reward's error, else with the
      stabilization reward's, else returns their weighted sum. */
  lemma CalcRewardCases(how: Summation, env: Env, motion: Motion, robot: Robot, effs: seq<Effector>, positions: seq<real>, pre: Option<seq<real>>, w: Weights)
    requires Valid(env.math)
    ensures var re := EffectorReward(env, motion, robot, effs, w.ke, w.wl, w.wr);
            var rs := StabilizationReward(env, positions, pre, w.ks);
      CalcReward(how, env, motion, robot, effs, positions, pre, w)
        == if re.Failure? then Failure(re.error)
           else if rs.Failure? then Failure(rs.error)
           else Success(WeightedSum(how, re.value, rs.value, w.we, w.ws))
  {
  }

  /** The sign a reward keeps under non-negative weights: at most zero (or
      `-inf`), except that in the source's sum a zero weight meeting `-inf`
      gives NaN. */
  predicate SignKept(how: Summation, w: Weights, x: ExtReal) {
    AtMost(x, 0.0) || (how.AsWritten? && (w.we == 0.0 || w.ws == 0.0) && x.NaN?)
  }

  /** Two rewards at most zero, weighted by non-negative weights, sum to a
      value that keeps its sign (or, in the source's sum only, is NaN). */
  lemma WeightedSumSignKept(how: Summation, e: ExtReal, s: ExtReal, w: Weights)
    requires AtMost(e, 0.0) && AtMost(s, 0.0) && NonNegative(w)
    ensures SignKept(how, w, WeightedSum(how, e, s, w.we, w.ws))
  {
    match how
    case Corrected =>
      WeightedAtMostZero(e, w.we);
      WeightedAtMostZero(s, w.ws);
      AddAtMost(Weighted(e, w.we), Weighted(s, w.ws), 0.0, 0.0);
    case AsWritten =>
      if (e.Fin? || w.we > 0.0) && (s.Fin? || w.ws > 0.0) {
        ScaleAtMostZero(e, w.we);
        ScaleAtMostZero(s, w.ws);
        AddAtMost(Scale(e, w.we), Scale(s, w.ws), 0.0, 0.0);
      }
  }

  /** With non-negative weights every step's reward is at most zero (or
      `-inf`); the source's sum can also be NaN, but only with a zero weight. */
  lemma CalcRewardNonPositive(how: Summation, env: Env, motion: Motion, robot: Robot, effs: seq<Effector>, positions: seq<real>, pre: Option<seq<real>>, w: Weights)
    requires Valid(env.math)
    requires NonNegative(w) && NonNegativeWeights(motion, effs)
    ensures CalcReward(how, env, motion, robot, effs, positions, pre, w).Success?
        ==> SignKept(how, w, CalcReward(how, env, motion, robot, effs, positions, pre, w).value)
  {
    var re := EffectorReward(env, motion, robot, effs, w.ke, w.wl, w.wr);
    var rs := StabilizationReward(env, positions, pre, w.ks);
    CalcRewardCases(how, env, motion, robot, effs, positions, pre, w);
    if re.Success? && rs.Success? {
      EffectorRewardNonPositive(env, motion, robot, effs, w.ke, w.wl, w.wr);
      WeightedSumSignKept(how, re.value, rs.value, w);
    }
  }

  /** Under non-negative weights the source's reward is NaN exactly when a
      zero weight meets a `-inf` tracking or stabilization reward; the
      corrected reward is never NaN. */
  lemma CalcRewardNaNIff(how: Summation, env: Env, motion: Motion, robot: Robot, effs: seq<Effector>, positions: seq<real>, pre: Option<seq<real>>, w: Weights)
    requires Valid(env.math) && NonNegative(w)
    requires CalcReward(how, env, motion, robot, effs, positions, pre, w).Success?
    ensures CalcReward(how, env, motion, robot, effs, positions, pre, w).value.NaN?
        <==> how.AsWritten?
             && ((w.we == 0.0 && EffectorReward(env, motion, robot, effs, w.ke, w.wl, w.wr).value.NegInf?)
                 || (w.ws == 0.0 && StabilizationReward(env, positions, pre, w.ks).value.NegInf?))
  {
    var e := EffectorReward(env, motion, robot, effs, w.ke, w.wl, w.wr).value;
    var s := StabilizationReward(env, positions, pre, w.ks).value;
    assert s.Fin? || s.NegInf?;
    assert CalcReward(how, env, motion, robot, effs, positions, pre, w) == Success(WeightedSum(how, e, s, w.we, w.ws));
  }

  /** With `we == 0` the tracking term is gone: two robots in any poses get
      the same corrected reward, and the same source reward unless either
      robot's tracking reward overflows to `-inf`. */
  lemma ZeroTrackingWeightIgnoresTracking(how: Summation, env: Env, motion: Motion, robot1: Robot, robot2: Robot, effs: seq<Effector>, positions: seq<real>, pre: Option<seq<real>>, w: Weights)
    requires Valid(env.math)
    requires w.we == 0.0
    ensures how.Corrected?
            || (EffectorReward(env, motion, robot1, effs, w.ke, w.wl, w.wr) != Success(NegInf)
                && EffectorReward(env, motion, robot2, effs, w.ke, w.wl, w.wr) != Success(NegInf))
        ==> CalcReward(how, env, motion, robot1, effs, positions, pre, w) == CalcReward(how, env, motion, robot2, effs, positions, pre, w)
  {
    if how.Corrected?
       || (EffectorReward(env, motion, robot1, effs, w.ke, w.wl, w.wr) != Success(NegInf)
           && EffectorReward(env, motion, robot2, effs, w.ke, w.wl, w.wr) != Success(NegInf))
    {
      TrackingDropped(how, env, motion, robot1, robot2, effs, positions, pre, w);
    }
  }

  /** The case of `ZeroTrackingWeightIgnoresTracking` where its conclusion is claimed. */
  lemma TrackingDropped(how: Summation, env: Env, motion: Motion, robot1: Robot, robot2: Robot, effs: seq<Effector>, positions: seq<real>, pre: Option<seq<real>>, w: Weights)
    requires Valid(env.math)
    requires w.we == 0.0
    requires how.Corrected?
            || (EffectorReward(env, motion, robot1, effs, w.ke, w.wl, w.wr) != Success(NegInf)
                && EffectorReward(env, motion, robot2, effs, w.ke, w.wl, w.wr) != Success(NegInf))
    ensures CalcReward(how, env, motion, robot1, effs, positions, pre, w) == CalcReward(how, env, motion, robot2, effs, positions, pre, w)
  {
    var r1 := EffectorReward(env, motion, robot1, effs, w.ke, w.wl, w.wr);
    var r2 := EffectorReward(env, motion, robot2, effs, w.ke, w.wl, w.wr);
    var rs := StabilizationReward(env, positions, pre, w.ks);
    CalcRewardCases(how, env, motion, robot1, effs, positions, pre, w);
    CalcRewardCases(how, env, motion, robot2, effs, positions, pre, w);
    assert r1.Success? <==> r2.Success?;
    if r1.Success? && rs.Success? {
      ZeroWeightDropsTerm(how, r1.value, r2.value, rs.value, w.ws);
    }
  }

  /** With `we == 0`, two finite tracking rewards (or any two, corrected)
      give the same sum. */
  lemma ZeroWeightDropsTerm(how: Summation, e1: ExtReal, e2: ExtReal, s: ExtReal, ws: real)
    requires how.Corrected? || (e1.Fin? && e2.Fin?)
    ensures WeightedSum(how, e1, s, 0.0, ws) == WeightedSum(how, e2, s, 0.0, ws)
  {
    if how.AsWritten? {
      assert Scale(e1, 0.0) == Fin(0.0) == Scale(e2, 0.0);
    }
  }

  /** With `ws == 0` the stabilization term is gone: the previous positions
      make no difference to the corrected reward, nor to the source's unless
      the stabilization reward overflows to `-inf`. */
  lemma ZeroStabilizationWeightIgnoresHistory(how: Summation, env: Env, motion: Motion, robot: Robot, effs: seq<Effector>, positions: seq<real>, pre: seq<real>, w: Weights)
    requires Valid(env.math)
    requires w.ws == 0.0 && |pre| == |positions| > 0
    ensures how.Corrected? || StabilizationReward(env, positions, Some(pre), w.ks) != Success(NegInf)
        ==> CalcReward(how, env, motion, robot, effs, positions, Some(pre), w) == CalcReward(how, env, motion, robot, effs, positions, None, w)
  {
  }

  /** The robot enters a step's reward only through the tracking reward: the
      stabilization term compares the frame's joint targets with the previous
      frame's, never the robot's own joints. */
  lemma RobotOnlyThroughTracking(how: Summation, env: Env, motion: Motion, robot1: Robot, robot2: Robot, effs: seq<Effector>, positions: seq<real>, pre: Option<seq<real>>, w: Weights)
    requires Valid(env.math)
    requires EffectorReward(env, motion, robot1, effs, w.ke, w.wl, w.wr) == EffectorReward(env, motion, robot2, effs, w.ke, w.wl, w.wr)
    ensures CalcReward(how, env, motion, robot1, effs, positions, pre, w) == CalcReward(how, env, motion, robot2, effs, positions, pre, w)
  {
  }

  /** The documented defaults are non-negative and weigh tracking above
      stabilization; neither weight is zero, so the source's sum keeps its sign. */
  lemma DefaultWeights()
    ensures NonNegative(Defaults) && Defaults.we > Defaults.ws > 0.0
    ensures Defaults.ke == Defaults.ks == Defaults.wl == 1.0 && Defaults.wr == 0.005
    ensures forall x :: SignKept(AsWritten, Defaults, x) <==> AtMost(x, 0.0)
  {
  }
}

=== FILE: ext_reals.dfy ===
/** Python floats as the reward code meets them: a finite value (an exact
    real here, without rounding), the two infinities, and NaN. Only the
    operations the evaluation applies to rewards are defined, each with the
    IEEE-754 treatment of the non-finite values. */
module ExtReals {

  datatype ExtReal = Fin(v: real) | NegInf | PosInf | NaN

  /** `a <= b` under IEEE comparison, for a finite bound `b`. NaN compares false. */
  predicate AtMost(a: ExtReal, b: real) {
    match a
    case Fin(x) => x <= b
    case NegInf => true
    case _ => false
  }

  /** `a + b`. Infinities of opposite sign, or any NaN, give NaN. */
  function Add(a: ExtReal, b: ExtReal): (r: ExtReal)
    ensures r.NaN? <==> a.NaN? || b.NaN? || (a.NegInf? && b.PosInf?) || (a.PosInf? && b.NegInf?)
    ensures r.Fin? <==> a.Fin? && b.Fin?
    ensures a == Fin(0.0) ==> r == b
  {
    match (a, b)
    case (NaN, _) => NaN
    case (_, NaN) => NaN
    case (NegInf, PosInf) => NaN
    case (PosInf, NegInf) => NaN
    case (NegInf, _) => NegInf
    case (_, NegInf) => NegInf
    case (PosInf, _) => PosInf
    case (_, PosInf) => PosInf
    case (Fin(x), Fin(y)) => Fin(x + y)
  }

  /** `a * w` for a finite factor `w`. An infinity times zero is NaN. */
  function Scale(a: ExtReal, w: real): (r: ExtReal)
    ensures r.NaN? <==> a.NaN? || (!a.Fin? && w == 0.0)
    ensures r.Fin? <==> a.Fin?
  {
    match a
    case Fin(x) => Fin(x * w)
    case NaN => NaN
    case NegInf => if w > 0.0 then NegInf else if w < 0.0 then PosInf else NaN
    case PosInf => if w > 0.0 then PosInf else if w < 0.0 then NegInf else NaN
  }

  /** `a / d` for a finite non-zero divisor `d`. */
  function DivBy(a: ExtReal, d: real): (r: ExtReal)
    requires d != 0.0
    ensures r.Fin? <==> a.Fin?
    ensures a.Fin? ==> r.v * d == a.v
    ensures d > 0.0 && !a.Fin? ==> r == a
  {
    match a
    case Fin(x) => Fin(x / d)
    case NaN => NaN
    case NegInf => if d > 0.0 then NegInf else PosInf
    case PosInf => if d > 0.0 then PosInf else NegInf
  }

  /** Sums of values bounded above stay bounded above. */
  lemma AddAtMost(a: ExtReal, b: ExtReal, x: real, y: real)
    requires AtMost(a, x) && AtMost(b, y)
    ensures AtMost(Add(a, b), x + y)
  {
  }

  /** A non-positive value scaled by a non-negative weight stays non-positive,
      except that an infinity times zero is NaN. */
  lemma ScaleAtMostZero(a: ExtReal, w: real)
    requires AtMost(a, 0.0) && w >= 0.0 && (a.Fin? || w > 0.0)
    ensures AtMost(Scale(a, w), 0.0)
  {
    if a.Fin? {
      assert a.v * w <= 0.0 by { assert a.v <= 0.0; }
    }
  }

  /** Dividing by a positive count keeps a non-positive value non-positive. */
  lemma DivAtMostZero(a: ExtReal, d: real)
    requires AtMost(a, 0.0) && d > 0.0
    ensures AtMost(DivBy(a, d), 0.0)
  {
  }
}

=== FILE: geometry.dfy ===
/** Poses, vectors and quaternions, and the numeric library functions the
    reward code calls but does not define (`math.exp`, `np.linalg.norm`,
    `quaternion.rotation_intrinsic_distance`) together with the target
    selectors of the utility module. Library functions are carried as
    function-valued fields of a record; `Valid` states the only facts about
    them that the model relies on. */
module Geometry {

  datatype Vec3 = Vec3(x: real, y: real, z: real)

  const Origin: Vec3 := Vec3(0.0, 0.0, 0.0)

  /** Component-wise `a - b`. */
  function Sub(a: Vec3, b: Vec3): (r: Vec3)
    ensures r == Origin <==> a == b
    ensures Add3(r, b) == a
  {
    Vec3(a.x - b.x, a.y - b.y, a.z - b.z)
  }

  /** Component-wise `a + b`. */
  function Add3(a: Vec3, b: Vec3): Vec3 {
    Vec3(a.x + b.x, a.y + b.y, a.z + b.z)
  }

  /** A quaternion in the `(w, x, y, z)` component order of the quaternion library. */
  datatype Quaternion = Quaternion(w: real, x: real, y: real, z: real)

  /** A quaternion in the `(x, y, z, w)` order in which link states report it. */
  datatype Xyzw = Xyzw(x: real, y: real, z: real, w: real)

  /** Reorders a link-state quaternion into library order: component 3 first,
      then components 0, 1, 2. */
  function ToWxyz(q: Xyzw): (r: Quaternion)
    ensures ToXyzw(r) == q
    ensures r.w == q.w && r.x == q.x && r.y == q.y && r.z == q.z
  {
    Quaternion(q.w, q.x, q.y, q.z)
  }

  /** The inverse reordering, from library order back to link-state order. */
  function ToXyzw(q: Quaternion): Xyzw {
    Xyzw(q.x, q.y, q.z, q.w)
  }

  /** A world-frame pose as reported by the robot for one link. */
  datatype Pose = Pose(vector: Vec3, quaternion: Xyzw)

  /** How an effector target is expressed: in world coordinates, or
      relative to the robot's root link. */
  datatype RefFrame = World | RootRelative

  /** The numeric library: `exp`, whether `exp` overflows, the Euclidean
      norm, and the intrinsic (geodesic) rotation distance. */
  datatype MathLib = MathLib(
    exp: real -> real,
    overflows: real -> bool,
    norm: Vec3 -> real,
    rotationDistance: (Quaternion, Quaternion) -> real)

  /** The facts the model assumes of the numeric library. `exp` is 1 at 0 and
      above 1 for positive arguments; it can overflow only for positive
      arguments (its value is at most 1 elsewhere); norms and rotation
      distances are non-negative and vanish on equal arguments. */
  ghost predicate Valid(m: MathLib) {
    && m.exp(0.0) == 1.0
    && (forall x: real :: x > 0.0 ==> m.exp(x) > 1.0)
    && (forall x: real :: m.overflows(x) ==> x > 0.0)
    && (forall v: Vec3 :: m.norm(v) >= 0.0)
    && m.norm(Origin) == 0.0
    && (forall p: Quaternion, q: Quaternion :: m.rotationDistance(p, q) >= 0.0)
    && (forall q: Quaternion :: m.rotationDistance(q, q) == 0.0)
  }

  /** Target selection: resolves a motion's raw location or rotation target
      into world coordinates given the reference frame and the root pose.
      Its implementation is not part of this model. */
  datatype Selector = Selector(
    location: (RefFrame, Vec3, Pose) -> Vec3,
    rotation: (RefFrame, Quaternion, Pose) -> Quaternion)

  /** `x ** 2`. The second factor goes through `Id` so that the solver's
      arithmetic sees a product of two terms rather than a power of one. */
  function Square(x: real): real {
    x * Id(x)
  }

  function Id(x: real): real {
    x
  }

  /** A square is non-negative, and zero exactly at zero. */
  lemma SquareFacts(x: real)
    ensures Square(x) >= 0.0
    ensures Square(x) == 0.0 <==> x == 0.0
  {
    SquareNonNegative(x);
    SquarePositive(x);
  }

  lemma SquareNonNegative(x: real)
    ensures Square(x) >= 0.0
  {
  }

  lemma SquarePositive(x: real)
    ensures x != 0.0 ==> Square(x) > 0.0
  {
  }

  /** A product of three non-negative factors is non-negative. */
  lemma ProductNonNegative(a: real, b: real, c: real)
    requires a >= 0.0 && b >= 0.0 && c >= 0.0
    ensures a * b * c >= 0.0
  {
    assert a * b >= 0.0;
  }

  /** With positive outer factors, a product is zero exactly when its middle factor is. */
  lemma ProductZeroIffMiddle(a: real, b: real, c: real)
    requires a > 0.0 && c > 0.0
    ensures a * b * c == 0.0 <==> b == 0.0
  {
  }
}

=== FILE: wrappers.dfy ===
/** Optional values and outcomes that may carry an error. The reward code
    returns `None` where no previous joint positions exist and raises on a
    division by zero; the model turns both into values of these types. */
module Wrappers {

  /** Present (`Some`) or absent (`None`). */
  datatype Option<+T> = None | Some(value: T)

  /** A computed value, or the error that stopped the computation. The three
      members below let `:-` stop at the first error and pass it on. */
  datatype Result<+T, +E> = Success(value: T) | Failure(error: E) {

    /** The value behind a successful outcome. */
    function Extract(): T
      requires Success?
    {
      value
    }

    /** Whether `:-` stops here. */
    predicate IsFailure() {
      Failure?
    }

    /** The same error, as an outcome of another value type. */
    function PropagateFailure<U>(): Result<U, E>
      requires Failure?
    {
      Failure(error)
    }
  }
}
